=== FILE: README.md ===
# Tic-tac-toe in the browser: a verified model of its game logic

`main.js` is a tic-tac-toe game for one person against the computer. It is built from three parts:

- The `game` object owns the state:
  - a nine-cell board;
  - `positionResidue`, the list of cells still free;
  - the `gameEnd` flag.
- Each of the two players made by `Player` keeps a play history. A player places a mark with
  `updateBoard`, and `checkWin` then tests that player's history against the eight winning lines.
- The controller's `startGame` loop alternates the human ("player", O) and the computer
  ("computer", X) until the game ends or no cell is free. The reset button clears everything and
  starts the loop again.
- The human's move comes from a click. The clicked element's id is read as a cell number with
  `+id.replace(/^\D+/g, "")`.
- The computer picks a random free cell.

The model has five modules, one per concern:

- `Seqs` (`seqs.dfy`): the free-cell list and the histories as sequences. It defines `Without`,
  which is `positionResidue.filter(cell => cell !== p)`.
- `WinLines` (`win_lines.dfy`): the eight winning combinations and checkWin's filter-and-count
  test. It relates them to a geometric definition of a straight line on the 3x3 grid.
- `CellIds` (`cell_ids.dfy`): reading a cell number from a clicked element's id.
- `TicTacToe` (`game.dfy`): the state as a class `Game`. The class holds:
  - `board: array<Mark>`;
  - `residue`;
  - `gameEnd`;
  - the two histories.

  The `game` methods and the `Player` methods are methods of this class. A player is named by a
  `Player` value, Human or Computer.
- `Controller` (`controller.dfy`): the turn loop and the reset handler.

The invariant `Game.Valid` (`TicTacToe.Consistent` on the board's contents) says:

- the free list is exactly the empty cells, in increasing order;
- each history is duplicate-free and is exactly the cells holding that player's mark, so no cell
  is held by both players;
- the free cells and the two histories together number nine;
- `gameEnd` holds exactly when a player has covered a line or no cell is free.

Every move (`UpdateBoard`, `PlayGame`, `Controller.PlayRound`), the loop (`Controller.StartGame`) and the
whole reset handler (`Controller.Restore`, `Controller.OnReset`) keep this invariant. The other methods
(`UpdateGameBoard`, `CheckWin`, `Win`, `Draw`, `ResetGameBoard`, `ResetPlayHistory`) are steps inside
those and do not keep it alone: `ResetGameBoard`, for one, empties the board before the histories are
cleared. Building on the invariant, the model proves that:

- checkWin's count test means "covers a line";
- a draw is declared only on a full board with no line covered;
- the loop's placements alternate strictly, the human first, and there are at most nine of them;
- every placement is made while no line is covered, so the computer never moves after the human has won;
- the computer is never asked to pick from an empty list;
- a click is accepted only when its id reads as a free cell, and each human move is the first such click;
- each pass of the loop takes the clicks up to and including the first one after the previous
  pass's that names a free cell, and plays that cell for the human; the loop reports how many clicks
  it took (`used`), none when nothing was placed, and every human placement of the run is the cell
  named by one of those clicks;
- the loop stops waiting only when none of the clicks after those taken names a free cell;
- reset restores the initial state.

## Ids without digits

An element id with no digit strips to `""` (main.js:125), and `+""` is 0. The listener sits on the
grid container "game-grid", which can itself be the click target. So a click on the container
plays cell 0 whenever cell 0 is free. `CellIds.DigitFreeIdReadsZero` and
`CellIds.GridClickPlaysCellZero` state this.

## Model

| member | source | states |
|---|---|---|
| Seqs.Without | main.js:37-40 | filtering `p` out of a list keeps exactly the other elements and never lengthens it |
| Seqs.WithoutAt | main.js:37-40 | in a duplicate-free list, filtering out the element at position i removes that position and keeps the rest in order |
| Seqs.WithoutAbsent | main.js:37-40 | filtering out an element that is not there leaves the list unchanged |
| Seqs.RemovePresent | main.js:37-40 | the free list stays increasing after a filter, and shrinks by one exactly when the cell was free |
| Seqs.AppendFresh | main.js:76 | pushing a cell not yet in a history keeps the history duplicate-free |
| WinLines.WinningCombinations | main.js:43-53 | the eight lines in the order checkWin scans them; ListedLinesAreStraight and StraightLinesAreListed prove they are exactly the rows, columns and diagonals |
| WinLines.HitsLine | main.js:83-92 | the for-of scan over the lines, stopping at the first whose intersection has length 3; HitsLineIff gives its meaning |
| WinLines.Wins | main.js:82-92 | checkWin's win test, the scan over the eight lines; WinsIff proves it means "covers a line" |
| WinLines.Intersection | main.js:85-87 | `playHistory.filter(e => combination.includes(e))` holds exactly the history's entries on the line and is no longer than the history |
| WinLines.IntersectionCount | main.js:85-88 | for a duplicate-free history, the intersection with a line of three distinct cells counts one per cell of the line already played |
| WinLines.CountThreeIffCovered | main.js:85-88 | for a duplicate-free history, an intersection of length 3 means the history covers the line, and conversely |
| WinLines.HitsLineIff | main.js:83-92 | the for-of scan finds a count of 3 exactly when some listed line is covered |
| WinLines.WinsIff | main.js:82-92 | checkWin reports a win for a duplicate-free history exactly when the history covers one of the eight lines |
| WinLines.WinsGrow | main.js:76-79 | playing one more fresh cell never undoes a win |
| WinLines.DuplicatesFoolTheCount | main.js:85-88 | without the duplicate-free premise the count test is wrong: [0, 0, 1] passes it yet covers no line |
| WinLines.SampleWins | main.js:43-53 | the histories [0, 4, 8] and [0, 1, 2] win |
| WinLines.SampleNoWin | main.js:43-53 | the history [0, 1, 5] does not win |
| WinLines.ListedLinesAreStraight | main.js:43-53 | each winning combination is three distinct cells of the board, in increasing order, on one row, column or diagonal |
| WinLines.StraightLinesAreListed | main.js:43-53 | every row, column and diagonal of three cells appears among the winning combinations |
| CellIds.StripLeadingNonDigits | main.js:125 | `replace(/^\D+/g, "")` gives the suffix of the id that is empty or starts with a digit, having dropped only non-digits |
| CellIds.ToNumber | main.js:125 | unary `+` on the stripped id: the result is a number exactly when the remainder is all decimal digits, the empty remainder included |
| CellIds.CellIndex | main.js:125-127 | the cell number read from an id; CellIdRoundTrip and DigitFreeIdReadsZero give its value on a prefixed numeral and on a digit-free id |
| CellIds.Accepts | main.js:121-126 | the click guard: a non-empty id whose number is in the free list; SampleClick, GridClickPlaysCellZero and PlayedCellRejected give its verdict on concrete ids |
| CellIds.StripPrefix | main.js:125 | stripping a digit-free prefix from before a digit gives back the rest unchanged |
| CellIds.CellIdRoundTrip | main.js:125-127 | any digit-free prefix followed by the decimal numeral of n reads back as the number n |
| CellIds.DigitFreeIdReadsZero | main.js:125 | an id with no digit reads as 0 |
| CellIds.GridClickPlaysCellZero | main.js:117-127 | a click on the grid container "game-grid" is accepted exactly when cell 0 is free |
| CellIds.SampleClick | main.js:121-127 | a click on "cell-7" is accepted exactly when cell 7 is free |
| TicTacToe.Judge | main.js:83-96 | checkWin's decision for the mover: a win first, then a draw when no cell is free; JudgeMeaning ties each outcome both ways to covered lines and free cells |
| TicTacToe.JudgeMeaning | main.js:82-97 | checkWin's decision is Won exactly when the mover covers a line, Drawn exactly when no cell is free and the mover covers none, and Ongoing otherwise |
| TicTacToe.FullBoardNoLineIsDraw | main.js:93-96 | on a full board where the mover covers no line, checkWin decides a draw |
| TicTacToe.EndedAfterMove | main.js:82-97 | after a move, the ended flag (old value, or set by win/draw) holds exactly when some player covers a line or no cell is free |
| TicTacToe.PlaceKeepsConsistent | main.js:74-80 | placing a free cell and running checkWin keeps the invariant on the board's contents, and the free list shrinks by one |
| TicTacToe.HumanPlaceKeepsConsistent | main.js:74-80 | the human's placement (mark O, human history) keeps the invariant |
| TicTacToe.ComputerPlaceKeepsConsistent | main.js:74-80 | the computer's placement (mark X, computer history) keeps the invariant |
| TicTacToe.Game.constructor | main.js:2-6 | a new game has nine empty cells, free list 0..8, not ended, empty histories, and satisfies the invariant |
| TicTacToe.Game.InitialIsValid | main.js:2-6 | the initial state satisfies the invariant: no line is covered by an empty history |
| TicTacToe.Game.HistoriesDisjoint | main.js:74-80 | in every valid state no cell is in both histories, and no free cell is in either |
| TicTacToe.Game.ResetGameBoard | main.js:24-30 | reset gives a fresh all-empty nine-cell board, free list 0..8 and not ended, and leaves the histories alone |
| TicTacToe.Game.ResetPlayHistory | main.js:72 | the player's history becomes empty; nothing else changes |
| TicTacToe.Game.UpdateGameBoard | main.js:34-41 | the mark goes into cell p, every other cell keeps its content, and p is filtered out of the free list |
| TicTacToe.Game.Win | main.js:140-147 | the game is ended, with the mover as winner |
| TicTacToe.Game.Draw | main.js:149-154 | the game is ended as a draw |
| TicTacToe.Game.CheckWin | main.js:82-97 | the outcome is a win if the mover's history passes the count test, else a draw if no cell is free, else ongoing; the flag is set exactly when the outcome is not ongoing or was set before |
| TicTacToe.Game.UpdateBoard | main.js:74-80 | the cell joins the mover's history, the mover's mark is placed, the cell leaves the free list, the other history and other cells are unchanged, the outcome is checkWin's decision, and the invariant holds again |
| TicTacToe.Game.PlayGame | main.js:99-138 | nothing happens once the game is over. Otherwise the computer plays a free cell, and the free list is never empty when it is asked. The human plays the cell named by the first click accepted against the free list; earlier clicks are rejected ones. If no click qualifies, the state is unchanged. Any placement is an UpdateBoard |
| TicTacToe.PlayedCellRejected | main.js:121-126 | once cell n has left the free list, a click on an id naming n (a second "cell-7") is rejected |
| TicTacToe.AwaitClick | main.js:116-135 | the returned position is the first click whose id is non-empty and reads as a free cell, or the end of the stream; every earlier click is rejected |
| Controller.PlayRound | main.js:166-171 | one pass of the loop places the human's mark and then the computer's exactly when the human's move left the game on: the human covered no line and a cell was left. The human's cell is the one named by the first click accepted against the free list, and every earlier click is rejected. With no placement, every click was rejected, all are consumed and the state is unchanged. Its placements alternate, the histories grow by exactly them, and the free list shrinks by their number |
| Controller.ExtendOpen | main.js:104 | a round played from an open state, whose computer move happens only when the human left the game open, keeps every placement of the run made in an open state |
| Controller.LoopPass | main.js:166-171 | one pass of the loop body from an open state: either it places nothing, the run and the click count are unchanged and no click from the count on names a free cell, or (TookClick) it takes the clicks up to the first one after the count that names a free cell, the run grows by the human's placement of exactly that cell and at most one computer move after it, and it keeps alternation, the histories, every placement open and the free-cell count, taking at least one cell |
| Controller.RoundTookClick | main.js:121-132 | a round played on the clicks after position `used`, seen at its place in the whole stream, is a pass that took a click (TookClick): the accepted click sits at `used + taken - 1` and the clicks between are rejected |
| Controller.FromClicksExtended | main.js:121-129 | after a pass that took a click, every human placement of the grown run is still the cell named by one of the clicks taken so far (FromClicks) |
| Controller.StartGame | main.js:165-173 | the loop's placements alternate strictly with the human first. There are at most nine, equal to the cells taken from the free list. The histories grow by exactly each player's placements. Every placement is made while no player has covered a line (OpenAfter), so nothing is played after a win. The loop stops only when the game has ended or a human turn is waiting, and it waits only when none of the clicks after the `used` it took names a free cell. The run is empty exactly when no click was taken, and every human placement is the cell named by one of the first `used` clicks (FromClicks). A ninth placement is the human's and ends the game. Nothing is played if the game was already over |
| Controller.RejectedTail | main.js:130-132 | clicks rejected as a suffix of the stream are rejected at their place in the whole stream |
| Controller.Restore | main.js:175-180 | after the reset steps the game is in its initial state, on a fresh board, and satisfies the invariant |
| Controller.OnReset | main.js:175-182 | from any state, reset then the new loop gives a valid game whose placements alternate from the human. There are at most nine, each made while no line was covered. The histories are exactly this run's placements. It waits only when none of the clicks after the `used` it took names a free cell; the run is empty exactly when no click was taken, and every human placement is the cell named by one of the clicks taken |

## Left out

- Drawing on the page is not modelled: `displayController`, the result messages written into "show-result", and clearing that message on reset. They only mirror the board to the page.
- `console.log` calls are not modelled; they have no effect on the game.
- Promises, `setTimeout` and `async`/`await` are not modelled. The model runs each turn to completion in order, which is the order the awaits enforce.
- `Math.random` is not modelled. The computer's pick is an unspecified index into the free list, so every proof holds for any pick.
- The reset race is not modelled: the reset button can be clicked while an earlier loop is still waiting on a click or a timer, and the old loop then goes on alongside the new one. The model runs one loop at a time.
- `getPositionResidue` and `getWinningCombinations` are not modelled as separate members. The model reads the field and the constant directly.
- The closure variable `gameEnd` (main.js:5) is never read after the object is built. The model keeps only the `game.gameEnd` property that `win`, `draw` and `resetGameBoard` write.
- CellIds.ToNumber: JavaScript's `Number` conversion is approximated. An empty string gives 0, a string of decimal digits gives its value, and every other remainder is taken to be NaN. Whitespace, signs, decimal points, exponents and hexadecimal forms are not modelled. In JavaScript the remainders "7 ", "7.0", "7e0" and "0x7" all convert to 7, so the source plays cell 7 for ids such as "cell-7.0" or "cell-0x7", which the model rejects. A remainder such as "7.5" converts to a number that is not an integer and matches no cell in either.
- TicTacToe.Game.PlayGame: the human's wait is modelled on a finite stream of clicked ids, one listener firing per click. In the browser an exhausted stream means the turn never ends; here PlayGame returns with nothing played. The stream stands for the clicks that reach an armed listener: clicks made while the computer's 500 ms timer runs (main.js:107-114), or between two turns, reach no listener in the browser and are lost, and the model does not represent them.
- Controller.StartGame: the loop stops with `waiting` set when a human turn finds no qualifying click. The source would wait forever at that point.
- The two players' histories live in the `Game` class rather than in two `Player` closures. This lets one invariant relate them to the board. `getTool` and `getPlayHistory` become `Tool` and `Game.History`.

=== FILE: cell_ids.dfy ===
/** Reading a clicked element's id as a cell index: `+id.replace(/^\D+/g, "")`. */
module CellIds {

  /** The value of JavaScript's unary `+` on the stripped id, approximated as a
      non-negative integer or NaN. */
  datatype JsNumber = Num(value: nat) | NaN

  /** `\d` in a JavaScript regular expression: an ASCII decimal digit. */
  predicate IsDigit(c: char) { '0' <= c <= '9' }

  predicate AllDigits(s: string) { forall i :: 0 <= i < |s| ==> IsDigit(s[i]) }

  predicate NoDigits(s: string) { forall i :: 0 <= i < |s| ==> !IsDigit(s[i]) }

  /** `s.replace(/^\D+/g, "")`: drop the longest prefix of non-digits. The result is the
      suffix of `s` that is empty or starts with a digit, and everything dropped is a non-digit. */
  function StripLeadingNonDigits(s: string): (r: string)
    ensures |r| <= |s| && r == s[|s| - |r|..]
    ensures r == [] || IsDigit(r[0])
    ensures NoDigits(s[..|s| - |r|])
  {
    if s == [] || IsDigit(s[0]) then s
    else
      var r := StripLeadingNonDigits(s[1..]);
      assert s[1..][..|s| - 1 - |r|] == s[1..|s| - |r|];
      r
  }

  /** The decimal value of a string of digits, most significant digit first. */
  function DigitsValue(s: string): nat
    requires AllDigits(s)
  {
    if s == [] then 0
    else 10 * DigitsValue(s[..|s| - 1]) + (s[|s| - 1] as int - '0' as int)
  }

  /** `+s` on the stripped remainder: the empty string is 0, a string of digits is
      its decimal value, and anything else is taken to be NaN. */
  function ToNumber(s: string): (r: JsNumber)
    ensures r.Num? <==> AllDigits(s)
  {
    if s == [] then Num(0)
    else if AllDigits(s) then Num(DigitsValue(s))
    else NaN
  }

  /** `+id.replace(/^\D+/g, "")` (main.js:125, 127). */
  function CellIndex(id: string): JsNumber
  {
    ToNumber(StripLeadingNonDigits(id))
  }

  /** The human's click guard (main.js:121-126): the id is non-empty and the number
      read from it is one of the free cells. NaN is never in the free list. */
  predicate Accepts(id: string, residue: seq<int>)
  {
    id != [] && CellIndex(id).Num? && CellIndex(id).value in residue
  }

  function DigitChar(d: nat): (c: char)
    requires d < 10
    ensures IsDigit(c)
  {
    ('0' as int + d) as char
  }

  /** The decimal numeral of `n`, as a cell id's numeric suffix is written. */
  function Decimal(n: nat): (s: string)
    ensures s != [] && AllDigits(s)
  {
    if n < 10 then [DigitChar(n)] else Decimal(n / 10) + [DigitChar(n % 10)]
  }

  lemma {:induction false} DecimalValue(n: nat)
    ensures DigitsValue(Decimal(n)) == n
  {
    if n >= 10 {
      DecimalValue(n / 10);
      var s := Decimal(n);
      assert s[..|s| - 1] == Decimal(n / 10);
    }
  }

  /** Stripping a digit-free prefix in front of a string that starts with a digit
      gives back exactly that string. */
  lemma {:induction false} StripPrefix(prefix: string, s: string)
    requires NoDigits(prefix) && s != [] && IsDigit(s[0])
    ensures StripLeadingNonDigits(prefix + s) == s
  {
    if prefix == [] {
      assert prefix + s == s;
    } else {
      assert (prefix + s)[1..] == prefix[1..] + s;
      StripPrefix(prefix[1..], s);
    }
  }

  /** Round trip: any digit-free prefix followed by the numeral of `n` reads back as `n`,
      so "cell-7" names cell 7. */
  lemma CellIdRoundTrip(prefix: string, n: nat)
    requires NoDigits(prefix)
    ensures CellIndex(prefix + Decimal(n)) == Num(n)
  {
    StripPrefix(prefix, Decimal(n));
    DecimalValue(n);
  }

  /** An id with no digit at all strips to "" and reads as 0 (JavaScript's `+""`). */
  lemma DigitFreeIdReadsZero(id: string)
    requires NoDigits(id)
    ensures CellIndex(id) == Num(0)
  {
  }

  /** A click whose target is the grid container itself ("game-grid", no digits) is read
      as cell 0, so it plays cell 0 whenever that cell is free. */
  lemma GridClickPlaysCellZero(id: string, residue: seq<int>)
    requires id == "game-grid"
    ensures Accepts(id, residue) <==> 0 in residue
  {
    assert NoDigits(id);
    DigitFreeIdReadsZero(id);
  }

  /** A click on "cell-7" is accepted exactly when cell 7 is free. */
  lemma SampleClick(residue: seq<int>)
    ensures Accepts("cell-7", residue) <==> 7 in residue
  {
    assert NoDigits("cell-");
    CellIdRoundTrip("cell-", 7);
    assert "cell-" + Decimal(7) == "cell-7";
  }
}

=== FILE: controller.dfy ===
/** The controller (main.js:159-185): the turn loop and the reset button. */
module Controller {
  import opened Seqs
  import opened WinLines
  import opened CellIds
  import opened TicTacToe

  /** One placement made during a run of the loop. */
  datatype Placement = Placement(who: Player, cell: int)

  /** The cells `who` placed, in order. */
  function MovesOf(trace: seq<Placement>, who: Player): seq<int>
  {
    if trace == [] then []
    else
      var last := trace[|trace| - 1];
      MovesOf(trace[..|trace| - 1], who) + (if last.who == who then [last.cell] else [])
  }

  /** Whose turn placement number `i` (from 0) is. */
  function Turn(i: nat): Player
  {
    if i % 2 == 0 then Human else Computer
  }

  /** Placements strictly alternate, the human first. */
  predicate Alternates(trace: seq<Placement>)
  {
    forall i :: 0 <= i < |trace| ==> trace[i].who == Turn(i)
  }

  /** The cells of `a + b` placed by `who` are those of `a`, then those of `b`. */
  lemma {:induction false} MovesOfConcat(a: seq<Placement>, b: seq<Placement>, who: Player)
    ensures MovesOf(a + b, who) == MovesOf(a, who) + MovesOf(b, who)
  {
    if b == [] {
      assert a + b == a;
    } else {
      var b' := b[..|b| - 1];
      MovesOfConcat(a, b', who);
      assert (a + b)[..|a + b| - 1] == a + b';
    }
  }

  /** An alternating run of even length may be followed by another alternating run. */
  lemma ConcatAlternates(a: seq<Placement>, b: seq<Placement>)
    requires Alternates(a) && Alternates(b) && |a| % 2 == 0
    ensures Alternates(a + b)
  {
    forall i | 0 <= i < |a + b| ensures (a + b)[i].who == Turn(i) {
      if i >= |a| {
        assert (a + b)[i] == b[i - |a|];
        TurnShift(i, |a|);
      }
    }
  }

  /** Turns repeat with period two. */
  lemma TurnShift(i: nat, n: nat)
    requires n <= i && n % 2 == 0
    ensures Turn(i) == Turn(i - n)
  {
  }

  /** A round appended to an alternating run that stopped at an even length keeps it
      alternating, and leaves it odd only when the round was a single placement. */
  lemma RoundAlternates(trace: seq<Placement>, placed: seq<Placement>, ended: bool)
    requires Alternates(trace) && |trace| % 2 == 0
    requires Alternates(placed) && 1 <= |placed| <= 2 && (|placed| == 1 ==> ended)
    ensures Alternates(trace + placed)
    ensures |trace + placed| % 2 == 1 ==> ended
  {
    ConcatAlternates(trace, placed);
  }

  /** A history that recorded `trace` and then `placed` has recorded `trace + placed`. */
  lemma RoundRecorded(start: seq<int>, trace: seq<Placement>, placed: seq<Placement>, who: Player,
                      before: seq<int>, after: seq<int>)
    requires before == start + MovesOf(trace, who)
    requires after == before + MovesOf(placed, who)
    ensures after == start + MovesOf(trace + placed, who)
  {
    MovesOfConcat(trace, placed, who);
  }

  /** One pass of the loop body (main.js:167-168): the human plays, then the computer's
      turn runs, which is a no-op when the human's move ended the game. Nothing is placed
      if the clicks run out while the human is waiting. */
  method PlayRound(g: Game, clicks: seq<string>) returns (consumed: nat, placed: seq<Placement>)
    requires g.Valid() && !g.gameEnd
    modifies g, g.board
    ensures g.Valid() && g.board == old(g.board)
    ensures consumed <= |clicks|
    ensures Alternates(placed) && |placed| <= 2
    ensures placed == [] ==> !g.gameEnd
    ensures |placed| == 1 ==> g.gameEnd
    ensures |g.residue| == |old(g.residue)| - |placed|
    ensures g.humanHistory == old(g.humanHistory) + MovesOf(placed, Human)
    ensures g.computerHistory == old(g.computerHistory) + MovesOf(placed, Computer)
    ensures |placed| >= 1 ==>
              (|placed| == 2 <==> !CompletesLine(old(g.humanHistory) + [placed[0].cell]) && |old(g.residue)| >= 2)
    ensures placed == [] ==>
              && g.residue == old(g.residue) && consumed == |clicks|
              && forall j :: 0 <= j < |clicks| ==> !Accepts(clicks[j], old(g.residue))
    ensures placed != [] ==>
              && 0 < consumed && Accepts(clicks[consumed - 1], old(g.residue))
              && placed[0].cell == CellIndex(clicks[consumed - 1]).value
              && forall j :: 0 <= j < consumed - 1 ==> !Accepts(clicks[j], old(g.residue))
  {
    placed := [];
    var human;
    consumed, human := g.PlayGame(Human, clicks);
    if human.None? {
      return;
    }
    JudgeMeaning(Human, g.humanHistory, |g.residue|);
    RoundShapes(human.value, 0);
    placed := [Placement(Human, human.value)];
    var _, computer := g.PlayGame(Computer, []);
    if computer.Some? {
      RoundShapes(human.value, computer.value);
      placed := [Placement(Human, human.value), Placement(Computer, computer.value)];
    }
  }

  /** The two shapes a round can have, and the cells each records for each player. */
  lemma RoundShapes(h: int, c: int)
    ensures var one := [Placement(Human, h)];
            Alternates(one) && MovesOf(one, Human) == [h] && MovesOf(one, Computer) == []
    ensures var two := [Placement(Human, h), Placement(Computer, c)];
            Alternates(two) && MovesOf(two, Human) == [h] && MovesOf(two, Computer) == [c]
  {
    var two := [Placement(Human, h), Placement(Computer, c)];
    assert two[..1] == [Placement(Human, h)];
  }

  /** After the first `n` placements of `trace`, played on top of the histories `h0` and
      `c0`, neither player had covered a line: the game was still on. */
  ghost predicate OpenAfter(h0: seq<int>, c0: seq<int>, trace: seq<Placement>, n: nat)
    requires n <= |trace|
  {
    !CompletesLine(h0 + MovesOf(trace[..n], Human)) && !CompletesLine(c0 + MovesOf(trace[..n], Computer))
  }

  /** A round played from an open state, whose computer move happens only when the human's
      move left the game open, keeps every proper prefix of the run open. */
  lemma ExtendOpen(h0: seq<int>, c0: seq<int>, trace: seq<Placement>, placed: seq<Placement>,
                   before: seq<int>, other: seq<int>)
    requires forall n :: 0 <= n < |trace| ==> OpenAfter(h0, c0, trace, n)
    requires before == h0 + MovesOf(trace, Human) && other == c0 + MovesOf(trace, Computer)
    requires !CompletesLine(before) && !CompletesLine(other)
    requires 1 <= |placed| <= 2 && placed[0].who == Human
    requires |placed| == 2 ==> !CompletesLine(before + [placed[0].cell])
    ensures forall n :: 0 <= n < |trace + placed| ==> OpenAfter(h0, c0, trace + placed, n)
  {
    var all := trace + placed;
    forall n | 0 <= n < |all| ensures OpenAfter(h0, c0, all, n) {
      if n < |trace| {
        OpenPrefixKept(h0, c0, trace, placed, n);
      } else if n == |trace| {
        OpenPrefixKept(h0, c0, trace, placed, n);
        assert trace[..n] == trace;
      } else {
        var once := trace + [placed[0]];
        assert all == once + placed[1..];
        OpenPrefixKept(h0, c0, once, placed[1..], n);
        assert once[..n] == once;
        assert once[..|once| - 1] == trace;
        assert h0 + MovesOf(once, Human) == before + [placed[0].cell];
        assert MovesOf(once, Computer) == MovesOf(trace, Computer);
      }
    }
  }

  /** Whether the game was open after `n` placements depends only on those placements. */
  lemma OpenPrefixKept(h0: seq<int>, c0: seq<int>, trace: seq<Placement>, more: seq<Placement>, n: nat)
    requires n <= |trace|
    ensures OpenAfter(h0, c0, trace + more, n) == OpenAfter(h0, c0, trace, n)
  {
    assert (trace + more)[..n] == trace[..n];
  }

  /** startGame (main.js:165-173): while a cell is free and the game is on, play a round.
      The loop also stops when the click stream runs dry before the human has made a move
      (`waiting`): in the browser that turn never resolves. `used` counts the clicks taken
      up to the last placement, each pass taking the clicks up to the first one that names a
      free cell; when the loop is waiting, none of the clicks after those names a free cell. */
  method StartGame(g: Game, clicks: seq<string>) returns (trace: seq<Placement>, waiting: bool, used: nat)
    requires g.Valid()
    modifies g, g.board
    ensures g.Valid() && g.board == old(g.board)
    ensures Alternates(trace)
    ensures |trace| == |old(g.residue)| - |g.residue| <= 9
    ensures g.humanHistory == old(g.humanHistory) + MovesOf(trace, Human)
    ensures g.computerHistory == old(g.computerHistory) + MovesOf(trace, Computer)
    ensures g.gameEnd != waiting
    ensures |trace| % 2 == 1 ==> g.gameEnd
    ensures |trace| == 9 ==> trace[8].who == Human && g.gameEnd
    ensures old(g.gameEnd) ==> trace == []
    ensures forall n :: 0 <= n < |trace| ==> OpenAfter(old(g.humanHistory), old(g.computerHistory), trace, n)
    ensures used <= |clicks|
    ensures waiting ==> forall j :: used <= j < |clicks| ==> !Accepts(clicks[j], g.residue)
    ensures trace == [] <==> used == 0
    ensures FromClicks(trace, clicks, used)
  {
    trace, waiting, used := [], false, 0;
    ghost var free0, h0, c0 := |g.residue|, g.humanHistory, g.computerHistory;
    while |g.residue| > 0 && !g.gameEnd
      invariant g.Valid() && g.board == old(g.board)
      invariant Alternates(trace)
      invariant |trace| + |g.residue| == free0
      invariant g.humanHistory == h0 + MovesOf(trace, Human)
      invariant g.computerHistory == c0 + MovesOf(trace, Computer)
      invariant |trace| % 2 == 1 ==> g.gameEnd
      invariant old(g.gameEnd) ==> trace == []
      invariant forall n :: 0 <= n < |trace| ==> OpenAfter(h0, c0, trace, n)
      invariant used <= |clicks|
      invariant !waiting
      invariant trace == [] <==> used == 0
      invariant FromClicks(trace, clicks, used)
      decreases |g.residue|
    {
      var trace', used';
      ghost var r := g.residue;
      trace', used', waiting := LoopPass(g, clicks, trace, used, h0, c0);
      if waiting {
        break;
      }
      FromClicksExtended(clicks, r, trace, used, trace', used');
      trace, used := trace', used';
    }
  }

  /** Every human placement of `trace` is the cell named by one of the first `used` clicks. */
  ghost predicate FromClicks(trace: seq<Placement>, clicks: seq<string>, used: nat)
  {
    forall i :: 0 <= i < |trace| && trace[i].who == Human ==>
      exists j :: 0 <= j < used && j < |clicks| && CellIndex(clicks[j]).Num? && CellIndex(clicks[j]).value == trace[i].cell
  }

  /** A round whose human placement was read from click `used' - 1` keeps every human
      placement of the run traceable to a click already taken. */
  lemma FromClicksExtended(clicks: seq<string>, residue: seq<int>, trace: seq<Placement>, used: nat,
                           trace': seq<Placement>, used': nat)
    requires FromClicks(trace, clicks, used)
    requires TookClick(clicks, residue, trace, used, trace', used')
    ensures FromClicks(trace', clicks, used')
  {
    forall i | 0 <= i < |trace'| && trace'[i].who == Human
      ensures exists j :: 0 <= j < used' && j < |clicks| && CellIndex(clicks[j]).Num? && CellIndex(clicks[j]).value == trace'[i].cell
    {
      if i < |trace| {
        assert trace'[i] == trace[i];
        var j :| 0 <= j < used && j < |clicks| && CellIndex(clicks[j]).Num? && CellIndex(clicks[j]).value == trace[i].cell;
        assert j < used';
      } else {
        assert i == |trace|;
        var j := used' - 1;
        assert CellIndex(clicks[j]).Num? && CellIndex(clicks[j]).value == trace'[i].cell;
      }
    }
  }

  /** One pass of startGame's loop body, with what the loop keeps about the run so far:
      a round is played on the clicks not yet taken; if it places nothing the loop is left
      waiting, otherwise its placements extend the run. */
  method LoopPass(g: Game, clicks: seq<string>, trace: seq<Placement>, used: nat,
                  ghost h0: seq<int>, ghost c0: seq<int>)
    returns (trace': seq<Placement>, used': nat, waiting: bool)
    requires g.Valid() && !g.gameEnd
    requires Alternates(trace) && |trace| % 2 == 0
    requires g.humanHistory == h0 + MovesOf(trace, Human)
    requires g.computerHistory == c0 + MovesOf(trace, Computer)
    requires forall n :: 0 <= n < |trace| ==> OpenAfter(h0, c0, trace, n)
    requires used <= |clicks|
    modifies g, g.board
    ensures g.Valid() && g.board == old(g.board)
    ensures Alternates(trace')
    ensures |trace'| + |g.residue| == |trace| + |old(g.residue)|
    ensures g.humanHistory == h0 + MovesOf(trace', Human)
    ensures g.computerHistory == c0 + MovesOf(trace', Computer)
    ensures |trace'| % 2 == 1 ==> g.gameEnd
    ensures forall n :: 0 <= n < |trace'| ==> OpenAfter(h0, c0, trace', n)
    ensures used' <= |clicks|
    ensures waiting ==> trace' == trace && !g.gameEnd
    ensures waiting ==> forall j :: used' <= j < |clicks| ==> !Accepts(clicks[j], g.residue)
    ensures !waiting ==> |g.residue| < |old(g.residue)|
    ensures waiting ==> used' == used
    ensures !waiting ==> TookClick(clicks, old(g.residue), trace, used, trace', used')
  {
    ghost var hBefore, cBefore, r0 := g.humanHistory, g.computerHistory, g.residue;
    var rest := clicks[used..];
    var taken, placed := PlayRound(g, rest);
    if placed == [] {
      RejectedTail(clicks, used, g.residue);
      return trace, used, true;
    }
    RoundTookClick(clicks, r0, trace, used, placed, taken);
    ExtendOpen(h0, c0, trace, placed, hBefore, cBefore);
    RoundAlternates(trace, placed, g.gameEnd);
    RoundRecorded(h0, trace, placed, Human, hBefore, g.humanHistory);
    RoundRecorded(c0, trace, placed, Computer, cBefore, g.computerHistory);
    return trace + placed, used + taken, false;
  }

  /** One pass of the loop, seen on the click stream: it took clicks `used` to `used' - 1`,
      the last of them is the first click after `used` that names a free cell of `residue`,
      and the run grew by the human's placement of that cell and, maybe, a computer move. */
  ghost predicate TookClick(clicks: seq<string>, residue: seq<int>, trace: seq<Placement>, used: nat,
                            trace': seq<Placement>, used': nat)
  {
    && used < used' <= |clicks|
    && |trace| < |trace'| <= |trace| + 2 && trace'[..|trace|] == trace
    && Accepts(clicks[used' - 1], residue)
    && trace'[|trace|] == Placement(Human, CellIndex(clicks[used' - 1]).value)
    && (|trace'| == |trace| + 2 ==> trace'[|trace| + 1].who == Computer)
    && forall j :: used <= j < used' - 1 ==> !Accepts(clicks[j], residue)
  }

  /** A round played on the clicks after `used` is a pass that took a click, at its place
      in the whole stream. */
  lemma RoundTookClick(clicks: seq<string>, residue: seq<int>, trace: seq<Placement>, used: nat,
                       placed: seq<Placement>, taken: nat)
    requires 0 < taken && used + taken <= |clicks|
    requires 1 <= |placed| <= 2 && Alternates(placed)
    requires Accepts(clicks[used..][taken - 1], residue)
    requires placed[0].cell == CellIndex(clicks[used..][taken - 1]).value
    requires forall j :: 0 <= j < taken - 1 ==> !Accepts(clicks[used..][j], residue)
    ensures TookClick(clicks, residue, trace, used, trace + placed, used + taken)
  {
    assert clicks[used + taken - 1] == clicks[used..][taken - 1];
    assert placed[0].who == Turn(0);
    assert |placed| == 2 ==> placed[1].who == Turn(1);
    assert (trace + placed)[..|trace|] == trace;
    forall j | used <= j < used + taken - 1 ensures !Accepts(clicks[j], residue) {
      assert clicks[j] == clicks[used..][j - used];
    }
  }

  /** Clicks rejected as a suffix of the stream are rejected at their place in it. */
  lemma RejectedTail(clicks: seq<string>, used: nat, residue: seq<int>)
    requires used <= |clicks|
    requires forall j :: 0 <= j < |clicks[used..]| ==> !Accepts(clicks[used..][j], residue)
    ensures forall j :: used <= j < |clicks| ==> !Accepts(clicks[j], residue)
  {
    forall j | used <= j < |clicks| ensures !Accepts(clicks[j], residue) {
      assert clicks[j] == clicks[used..][j - used];
    }
  }

  /** The first four statements of the reset handler (main.js:175-180): a new empty board,
      every cell free, the game not ended, both histories empty. */
  method Restore(g: Game)
    modifies g
    ensures g.Initial() && g.Valid() && fresh(g.board)
  {
    g.ResetGameBoard();
    g.ResetPlayHistory(Human);
    g.ResetPlayHistory(Computer);
    g.InitialIsValid();
  }

  /** The reset handler (main.js:175-182): restore, then run a fresh loop. From any state,
      the new game alternates from the human, places at most nine marks, and the histories
      are exactly the placements of this run; every human placement is the cell named by one
      of the `used` clicks taken. */
  method OnReset(g: Game, clicks: seq<string>) returns (trace: seq<Placement>, waiting: bool, used: nat)
    modifies g
    ensures g.Valid()
    ensures Alternates(trace) && |trace| <= 9
    ensures g.humanHistory == MovesOf(trace, Human)
    ensures g.computerHistory == MovesOf(trace, Computer)
    ensures g.gameEnd != waiting
    ensures forall n :: 0 <= n < |trace| ==> OpenAfter([], [], trace, n)
    ensures used <= |clicks|
    ensures waiting ==> forall j :: used <= j < |clicks| ==> !Accepts(clicks[j], g.residue)
    ensures trace == [] <==> used == 0
    ensures FromClicks(trace, clicks, used)
  {
    Restore(g);
    trace, waiting, used := StartGame(g, clicks);
  }
}

=== FILE: game.dfy ===
/** The shared game state (the `game` module object of main.js) and the moves a
    player makes on it (the `Player` factory). The two players' histories are
    kept beside the board so that one invariant can relate them. */
module TicTacToe {
  import opened Seqs
  import opened WinLines
  import opened CellIds

  /** A cell's content: "", "O" or "X". */
  datatype Mark = Empty | O | X

  /** The two players the controller creates: "player" plays O, "computer" plays X. */
  datatype Player = Human | Computer

  /** What checkWin concludes after a move; the text shown for Won and Drawn is left out. */
  datatype Outcome = Ongoing | Won(winner: Player) | Drawn

  datatype Option<T> = None | Some(value: T)

  function Tool(who: Player): Mark
  {
    if who == Human then O else X
  }

  function Other(who: Player): Player
  {
    if who == Human then Computer else Human
  }

  /** `[...Array(9).keys()]` */
  const AllCells: seq<int> := [0, 1, 2, 3, 4, 5, 6, 7, 8]

  /** checkWin's decision for the player who just moved: a completed line first,
      then a draw when no free cell is left. */
  function Judge(who: Player, history: seq<int>, freeLeft: nat): Outcome
  {
    if Wins(history) then Won(who)
    else if freeLeft == 0 then Drawn
    else Ongoing
  }

  /** What the decision means: a win exactly when the mover covers a line; a draw only
      when the board is full and the mover covers no line; otherwise the game goes on. */
  lemma JudgeMeaning(who: Player, history: seq<int>, freeLeft: nat)
    requires NoDup(history)
    ensures Judge(who, history, freeLeft) == Won(who) <==> CompletesLine(history)
    ensures Judge(who, history, freeLeft) == Drawn <==> freeLeft == 0 && !CompletesLine(history)
    ensures Judge(who, history, freeLeft) == Ongoing <==> freeLeft > 0 && !CompletesLine(history)
  {
    WinsIff(history);
  }

  /** A full board where the mover covers no line is a draw. */
  lemma FullBoardNoLineIsDraw(who: Player, history: seq<int>)
    requires NoDup(history) && !CompletesLine(history)
    ensures Judge(who, history, 0) == Drawn
  {
    WinsIff(history);
  }

  /** The ended flag after a move by the player whose history was `mover`: it was set before,
      or checkWin sets it now; either way it says that someone has completed a line or that
      no cell is free. */
  lemma EndedAfterMove(who: Player, mover: seq<int>, other: seq<int>, p: int,
                       before: seq<int>, after: seq<int>, ended: bool)
    requires NoDup(mover + [p]) && p in before
    requires ended <==> CompletesLine(mover) || CompletesLine(other) || before == []
    ensures (ended || Judge(who, mover + [p], |after|) != Ongoing)
            <==> CompletesLine(mover + [p]) || CompletesLine(other) || after == []
  {
    WinsIff(mover + [p]);
    if CompletesLine(mover) {
      var k :| 0 <= k < |WinningCombinations| && Covered(mover, WinningCombinations[k]);
      assert Covered(mover + [p], WinningCombinations[k]);
    }
  }

  /** The invariant every reachable game keeps, stated on the cells' contents: the free
      list is exactly the empty cells, in increasing order; each player's history is
      duplicate-free and is exactly the cells holding its mark; every cell is free or in
      one history; and the game has ended exactly when a player has completed a line or
      no cell is free. */
  ghost predicate Consistent(cells: seq<Mark>, residue: seq<int>, human: seq<int>, computer: seq<int>, ended: bool)
  {
    && |cells| == 9
    && Increasing(residue)
    && (forall x :: x in residue ==> 0 <= x < 9)
    && (forall x :: x in human ==> 0 <= x < 9)
    && (forall x :: x in computer ==> 0 <= x < 9)
    && (forall i :: 0 <= i < 9 ==> (cells[i] == Empty <==> i in residue))
    && (forall i :: 0 <= i < 9 ==> (cells[i] == O <==> i in human))
    && (forall i :: 0 <= i < 9 ==> (cells[i] == X <==> i in computer))
    && NoDup(human) && NoDup(computer)
    && |human| + |computer| + |residue| == 9
    && (ended <==> CompletesLine(human) || CompletesLine(computer) || residue == [])
  }

  /** One placement of a free cell followed by checkWin keeps the invariant: the mark goes
      into cell `p`, `p` leaves the free list and joins the mover's history, and the ended
      flag is raised when checkWin decides a win or a draw. */
  lemma PlaceKeepsConsistent(who: Player, p: int, cells: seq<Mark>, residue: seq<int>,
                             human: seq<int>, computer: seq<int>, ended: bool)
    requires Consistent(cells, residue, human, computer, ended) && p in residue
    ensures |Without(residue, p)| == |residue| - 1
    ensures who == Human ==>
              var after := Without(residue, p);
              Consistent(cells[p := O], after, human + [p], computer,
                         ended || Judge(Human, human + [p], |after|) != Ongoing)
    ensures who == Computer ==>
              var after := Without(residue, p);
              Consistent(cells[p := X], after, human, computer + [p],
                         ended || Judge(Computer, computer + [p], |after|) != Ongoing)
  {
    if who == Human {
      HumanPlaceKeepsConsistent(p, cells, residue, human, computer, ended);
    } else {
      ComputerPlaceKeepsConsistent(p, cells, residue, human, computer, ended);
    }
  }

  // The two cases below differ only in the mark and the history; they are kept apart
  // because one lemma over both is far costlier for the solver.

  /** The human's placement: mark O, the human's history grows. */
  lemma HumanPlaceKeepsConsistent(p: int, cells: seq<Mark>, residue: seq<int>,
                                  human: seq<int>, computer: seq<int>, ended: bool)
    requires Consistent(cells, residue, human, computer, ended) && p in residue
    ensures |Without(residue, p)| == |residue| - 1
    ensures var after := Without(residue, p);
            Consistent(cells[p := O], after, human + [p], computer,
                       ended || Judge(Human, human + [p], |after|) != Ongoing)
  {
    RemovePresent(residue, p);
    AppendFresh(human, p);
    EndedAfterMove(Human, human, computer, p, residue, Without(residue, p), ended);
  }

  /** The computer's placement: mark X, the computer's history grows. */
  lemma ComputerPlaceKeepsConsistent(p: int, cells: seq<Mark>, residue: seq<int>,
                                     human: seq<int>, computer: seq<int>, ended: bool)
    requires Consistent(cells, residue, human, computer, ended) && p in residue
    ensures |Without(residue, p)| == |residue| - 1
    ensures var after := Without(residue, p);
            Consistent(cells[p := X], after, human, computer + [p],
                       ended || Judge(Computer, computer + [p], |after|) != Ongoing)
  {
    RemovePresent(residue, p);
    AppendFresh(computer, p);
    EndedAfterMove(Computer, computer, human, p, residue, Without(residue, p), ended);
  }

  class Game {
    var board: array<Mark>
    var residue: seq<int>
    var gameEnd: bool
    var humanHistory: seq<int>
    var computerHistory: seq<int>

    function History(who: Player): seq<int>
      reads this
    {
      if who == Human then humanHistory else computerHistory
    }

    /** The state every reachable game is in (see Consistent). */
    ghost predicate Valid()
      reads this, board
    {
      board.Length == 9 && Consistent(board[..], residue, humanHistory, computerHistory, gameEnd)
    }

    /** A fresh game: nine empty cells, every cell free, not ended, no moves played. */
    ghost predicate Initial()
      reads this, board
    {
      && board.Length == 9
      && (forall i :: 0 <= i < 9 ==> board[i] == Empty)
      && residue == AllCells
      && !gameEnd
      && humanHistory == [] && computerHistory == []
    }

    /** Creating the `game` object and the two players (main.js:2-6, 68-69, 162-163). */
    constructor ()
      ensures Initial() && Valid()
    {
      board := new Mark[9](_ => Empty);
      residue := AllCells;
      gameEnd := false;
      humanHistory := [];
      computerHistory := [];
      new;
      InitialIsValid();
    }

    lemma InitialIsValid()
      requires Initial()
      ensures Valid()
    {
      assert !CompletesLine([]) by {
        forall k | 0 <= k < |WinningCombinations|
          ensures !Covered([], WinningCombinations[k])
        {
          assert WinningCombinations[k][0] in WinningCombinations[k];
        }
      }
    }

    /** No two players own the same cell (both histories are read off the board). */
    lemma HistoriesDisjoint()
      requires Valid()
      ensures forall x :: x in humanHistory ==> x !in computerHistory
      ensures forall x :: x in residue ==> x !in humanHistory && x !in computerHistory
    {
    }

    /** resetGameBoard (main.js:24-30): a new all-empty board, every cell free, not ended. */
    method ResetGameBoard()
      modifies this
      ensures fresh(board) && board.Length == 9
      ensures forall i :: 0 <= i < 9 ==> board[i] == Empty
      ensures residue == AllCells && !gameEnd
      ensures humanHistory == old(humanHistory) && computerHistory == old(computerHistory)
    {
      board := new Mark[9](_ => Empty);
      residue := AllCells;
      gameEnd := false;
    }

    /** resetPlayHistory (main.js:72) for one player. */
    method ResetPlayHistory(who: Player)
      modifies this
      ensures History(who) == [] && History(Other(who)) == old(History(Other(who)))
      ensures board == old(board) && residue == old(residue) && gameEnd == old(gameEnd)
    {
      if who == Human {
        humanHistory := [];
      } else {
        computerHistory := [];
      }
    }

    /** updateGameBoard (main.js:34-41): write the mark into cell `p`, leave the other
        cells alone, and filter `p` out of the free list. */
    method UpdateGameBoard(p: int, tool: Mark)
      requires board.Length == 9 && 0 <= p < 9
      modifies this`residue, board
      ensures board[p] == tool
      ensures forall i :: 0 <= i < 9 && i != p ==> board[i] == old(board[i])
      ensures residue == Without(old(residue), p)
    {
      board[p] := tool;
      residue := Without(residue, p);
    }

    /** win (main.js:140-147): end the game; the winner's message is left out. */
    method Win(who: Player) returns (o: Outcome)
      modifies this`gameEnd
      ensures gameEnd && o == Won(who)
    {
      gameEnd := true;
      o := Won(who);
    }

    /** draw (main.js:149-154): end the game; the draw message is left out. */
    method Draw() returns (o: Outcome)
      modifies this`gameEnd
      ensures gameEnd && o == Drawn
    {
      gameEnd := true;
      o := Drawn;
    }

    /** checkWin (main.js:82-97) for the player who just moved. */
    method CheckWin(who: Player) returns (o: Outcome)
      modifies this`gameEnd
      ensures o == Judge(who, History(who), |residue|)
      ensures gameEnd == (old(gameEnd) || o != Ongoing)
    {
      if Wins(History(who)) {
        o := Win(who);
      } else if |residue| == 0 {
        o := Draw();
      } else {
        o := Ongoing;
      }
    }

    /** updateBoard (main.js:74-80): record the move in the mover's history, place the
        mark, then check the mover for a win or a draw. Cell `p` is free, as both kinds
        of player only ever pick from the free list. */
    method UpdateBoard(who: Player, p: int) returns (o: Outcome)
      requires Valid() && p in residue
      modifies this, board
      ensures Valid() && board == old(board)
      ensures History(who) == old(History(who)) + [p]
      ensures History(Other(who)) == old(History(Other(who)))
      ensures board[p] == Tool(who)
      ensures forall i :: 0 <= i < 9 && i != p ==> board[i] == old(board[i])
      ensures residue == Without(old(residue), p) && |residue| == |old(residue)| - 1
      ensures o == Judge(who, History(who), |residue|)
      ensures gameEnd == (old(gameEnd) || o != Ongoing)
    {
      ghost var cells0, r0, h0, c0, end0 := board[..], residue, humanHistory, computerHistory, gameEnd;
      if who == Human {
        humanHistory := humanHistory + [p];
      } else {
        computerHistory := computerHistory + [p];
      }
      ghost var h1, c1 := humanHistory, computerHistory;
      UpdateGameBoard(p, Tool(who));
      o := CheckWin(who);
      assert humanHistory == h1 && computerHistory == c1;
      assert board[..] == cells0[p := Tool(who)];
      PlaceKeepsConsistent(who, p, cells0, r0, h0, c0, end0);
    }

    /** playGame (main.js:99-138), move logic only. Once the game has ended nothing
        happens. The computer plays some free cell (the random index into the free list
        is left open). The human consumes the click stream up to the first click whose
        id names a free cell and plays that cell; clicks before it are ignored, and if
        no click qualifies the human is still waiting and nothing changes. */
    method PlayGame(who: Player, clicks: seq<string>) returns (consumed: nat, played: Option<int>)
      requires Valid()
      modifies this, board
      ensures Valid() && board == old(board)
      ensures consumed <= |clicks|
      ensures old(gameEnd) ==> consumed == 0 && played == None
      ensures who == Computer ==> consumed == 0 && (played.Some? <==> !old(gameEnd))
      ensures who == Human && played.Some? ==>
                consumed > 0 && Accepts(clicks[consumed - 1], old(residue))
                && played.value == CellIndex(clicks[consumed - 1]).value
                && forall j :: 0 <= j < consumed - 1 ==> !Accepts(clicks[j], old(residue))
      ensures who == Human && played.None? && !old(gameEnd) ==>
                consumed == |clicks| && forall j :: 0 <= j < |clicks| ==> !Accepts(clicks[j], old(residue))
      ensures played.None? ==> unchanged(this) && unchanged(board)
      ensures played.Some? ==>
                && played.value in old(residue)
                && History(who) == old(History(who)) + [played.value]
                && History(Other(who)) == old(History(Other(who)))
                && board[played.value] == Tool(who)
                && (forall i :: 0 <= i < 9 && i != played.value ==> board[i] == old(board[i]))
                && residue == Without(old(residue), played.value)
                && |residue| == |old(residue)| - 1
                && gameEnd == (old(gameEnd) || Judge(who, History(who), |residue|) != Ongoing)
    {
      consumed, played := 0, None;
      if gameEnd {
        return;
      }
      if who == Computer {
        // Valid() gives a free cell whenever the game is still on.
        var i :| 0 <= i < |residue|;
        var p := residue[i];
        var _ := UpdateBoard(who, p);
        played := Some(p);
      } else {
        var k := AwaitClick(clicks, residue);
        if k < |clicks| {
          var p := CellIndex(clicks[k]).value;
          var _ := UpdateBoard(who, p);
          consumed, played := k + 1, Some(p);
        } else {
          consumed := |clicks|;
        }
      }
    }
  }

  /** Once cell `n` has been played it has left the free list, so a further click on an
      element whose id names `n` ("cell-7" again, after 7 was played) is rejected. */
  lemma PlayedCellRejected(prefix: string, n: nat, residue: seq<int>)
    requires NoDigits(prefix)
    ensures !Accepts(prefix + Decimal(n), Without(residue, n))
  {
    CellIdRoundTrip(prefix, n);
  }

  /** The human's wait (main.js:116-135): each click is checked against the free list;
      a click that does not qualify re-arms the listener. Returns the position of the
      first qualifying click, or |clicks| if there is none. */
  method AwaitClick(clicks: seq<string>, residue: seq<int>) returns (k: nat)
    ensures k <= |clicks|
    ensures k < |clicks| ==> Accepts(clicks[k], residue)
    ensures forall j :: 0 <= j < k ==> !Accepts(clicks[j], residue)
  {
    k := 0;
    while k < |clicks| && !Accepts(clicks[k], residue)
      invariant k <= |clicks|
      invariant forall j :: 0 <= j < k ==> !Accepts(clicks[j], residue)
    {
      k := k + 1;
    }
  }
}

=== FILE: seqs.dfy ===
/** Sequences of cell indices: the free-cell list and the play histories. */
module Seqs {

  /** No index occurs twice. */
  predicate NoDup(s: seq<int>) {
    forall i, j :: 0 <= i < j < |s| ==> s[i] != s[j]
  }

  /** Strictly increasing; the free-cell list starts as 0..8 and keeps this order. */
  predicate Increasing(s: seq<int>) {
    forall i, j :: 0 <= i < j < |s| ==> s[i] < s[j]
  }

  /** `s.filter(cell => cell !== p)`: every element except `p`, in order. */
  function Without(s: seq<int>, p: int): (r: seq<int>)
    ensures forall x :: x in r <==> x in s && x != p
    ensures |r| <= |s|
  {
    if s == [] then []
    else if s[0] == p then Without(s[1..], p)
    else [s[0]] + Without(s[1..], p)
  }

  lemma IncreasingNoDup(s: seq<int>)
    requires Increasing(s)
    ensures NoDup(s)
  {
  }

  /** Filtering out an absent element changes nothing. */
  lemma {:induction false} WithoutAbsent(s: seq<int>, p: int)
    requires p !in s
    ensures Without(s, p) == s
  {
    if s != [] {
      WithoutAbsent(s[1..], p);
      assert s == [s[0]] + s[1..];
    }
  }

  /** In a duplicate-free list, filtering out the element at `i` removes exactly
      that position and keeps the others in their order. */
  lemma {:induction false} WithoutAt(s: seq<int>, i: nat)
    requires NoDup(s) && i < |s|
    ensures Without(s, s[i]) == s[..i] + s[i + 1..]
  {
    if i == 0 {
      assert s[0] !in s[1..];
      WithoutAbsent(s[1..], s[0]);
    } else {
      assert NoDup(s[1..]);
      WithoutAt(s[1..], i - 1);
      assert s[1..][i - 1] == s[i];
      assert s[1..][..i - 1] + s[1..][i..] == s[1..i] + s[i + 1..];
      assert s[..i] == [s[0]] + s[1..i];
    }
  }

  /** Appending an element not yet present keeps a list duplicate-free. */
  lemma AppendFresh(s: seq<int>, p: int)
    requires NoDup(s) && p !in s
    ensures NoDup(s + [p])
  {
    forall i, j | 0 <= i < j < |s + [p]| ensures (s + [p])[i] != (s + [p])[j] {
      assert (s + [p])[i] == s[i];
    }
  }

  /** Removing a present element from an increasing list leaves an increasing
      list one shorter; removing an absent one leaves it as it was. */
  lemma RemovePresent(s: seq<int>, p: int)
    requires Increasing(s)
    ensures Increasing(Without(s, p))
    ensures |Without(s, p)| == if p in s then |s| - 1 else |s|
  {
    if p in s {
      IncreasingNoDup(s);
      var i :| 0 <= i < |s| && s[i] == p;
      WithoutAt(s, i);
      var r := s[..i] + s[i + 1..];
      forall a, b | 0 <= a < b < |r| ensures r[a] < r[b] {
        var a' := if a < i then a else a + 1;
        var b' := if b < i then b else b + 1;
        assert r[a] == s[a'] && r[b] == s[b'];
      }
    } else {
      WithoutAbsent(s, p);
    }
  }
}

=== FILE: win_lines.dfy ===
/** The eight fixed winning lines and checkWin's test of a play history against them. */
module WinLines {
  import opened Seqs

  /** Rows, columns and diagonals of the 3x3 grid, in the order checkWin scans them. */
  const WinningCombinations: seq<seq<int>> :=
    [[0, 1, 2], [3, 4, 5], [6, 7, 8],
     [0, 3, 6], [1, 4, 7], [2, 5, 8],
     [0, 4, 8], [2, 4, 6]]

  /** `history.filter(e => line.includes(e))`: the history's entries lying on the line, in play order. */
  function Intersection(history: seq<int>, line: seq<int>): (r: seq<int>)
    ensures forall x :: x in r <==> x in history && x in line
    ensures |r| <= |history|
  {
    if history == [] then []
    else (if history[0] in line then [history[0]] else []) + Intersection(history[1..], line)
  }

  /** checkWin's `for...of` loop: some line, scanned in order, meets the history in exactly three entries. */
  predicate HitsLine(history: seq<int>, lines: seq<seq<int>>)
  {
    lines != [] && (|Intersection(history, lines[0])| == 3 || HitsLine(history, lines[1..]))
  }

  /** The win test as the source computes it. */
  predicate Wins(history: seq<int>)
  {
    HitsLine(history, WinningCombinations)
  }

  /** Every cell of the line has been played. */
  predicate Covered(history: seq<int>, line: seq<int>)
  {
    forall x :: x in line ==> x in history
  }

  /** The meaning of a win: the history covers one of the eight lines. */
  predicate CompletesLine(history: seq<int>)
  {
    exists k :: 0 <= k < |WinningCombinations| && Covered(history, WinningCombinations[k])
  }

  /** Three distinct cells. */
  predicate Triple(line: seq<int>)
  {
    |line| == 3 && line[0] != line[1] && line[0] != line[2] && line[1] != line[2]
  }

  function Ind(b: bool): nat { if b then 1 else 0 }

  /** A duplicate-free history meets a line of three distinct cells once per cell it has played. */
  lemma {:induction false} IntersectionCount(history: seq<int>, line: seq<int>)
    requires NoDup(history) && Triple(line)
    ensures |Intersection(history, line)|
            == Ind(line[0] in history) + Ind(line[1] in history) + Ind(line[2] in history)
  {
    if history != [] {
      var h, t := history[0], history[1..];
      assert history == [h] + t;
      assert NoDup(t);
      assert h !in t;
      IntersectionCount(t, line);
      assert |Intersection(history, line)| == Ind(h in line) + |Intersection(t, line)|;
      assert Ind(h in line) == Ind(h == line[0]) + Ind(h == line[1]) + Ind(h == line[2]);
      forall j | 0 <= j < 3
        ensures Ind(line[j] in history) == Ind(h == line[j]) + Ind(line[j] in t)
      {
        assert line[j] in history <==> line[j] == h || line[j] in t;
      }
    }
  }

  /** For a duplicate-free history the count test is exactly "the line is covered". */
  lemma CountThreeIffCovered(history: seq<int>, line: seq<int>)
    requires NoDup(history) && Triple(line)
    ensures |Intersection(history, line)| == 3 <==> Covered(history, line)
  {
    IntersectionCount(history, line);
    assert line == [line[0], line[1], line[2]];
  }

  lemma {:induction false} HitsLineIff(history: seq<int>, lines: seq<seq<int>>)
    requires NoDup(history)
    requires forall k :: 0 <= k < |lines| ==> Triple(lines[k])
    ensures HitsLine(history, lines) <==> exists k :: 0 <= k < |lines| && Covered(history, lines[k])
  {
    if lines != [] {
      CountThreeIffCovered(history, lines[0]);
      HitsLineIff(history, lines[1..]);
      if exists k :: 0 <= k < |lines| && Covered(history, lines[k]) {
        var k :| 0 <= k < |lines| && Covered(history, lines[k]);
        if k > 0 {
          assert lines[1..][k - 1] == lines[k];
        }
      }
      if exists k :: 0 <= k < |lines| - 1 && Covered(history, lines[1..][k]) {
        var k :| 0 <= k < |lines| - 1 && Covered(history, lines[1..][k]);
        assert lines[1..][k] == lines[k + 1];
      }
    }
  }

  /** Win correctness: on a duplicate-free history, checkWin reports a win iff
      the history contains all three cells of one of the eight lines. */
  lemma WinsIff(history: seq<int>)
    requires NoDup(history)
    ensures Wins(history) <==> CompletesLine(history)
  {
    HitsLineIff(history, WinningCombinations);
  }

  /** Playing one more fresh cell never undoes a win. */
  lemma WinsGrow(history: seq<int>, p: int)
    requires NoDup(history + [p])
    ensures Wins(history) ==> Wins(history + [p])
  {
    assert NoDup(history) by {
      forall i, j | 0 <= i < j < |history| ensures history[i] != history[j] {
        assert (history + [p])[i] == history[i] && (history + [p])[j] == history[j];
      }
    }
    WinsIff(history);
    WinsIff(history + [p]);
    if CompletesLine(history) {
      var k :| 0 <= k < |WinningCombinations| && Covered(history, WinningCombinations[k]);
      assert Covered(history + [p], WinningCombinations[k]);
    }
  }

  /** Without the duplicate-free premise the count test is fooled:
      [0, 0, 1] meets the top row three times yet covers no line. */
  lemma DuplicatesFoolTheCount()
    ensures Wins([0, 0, 1]) && !CompletesLine([0, 0, 1])
  {
    assert Intersection([0, 0, 1], [0, 1, 2]) == [0, 0, 1];
    forall k | 0 <= k < |WinningCombinations|
      ensures !Covered([0, 0, 1], WinningCombinations[k])
    {
      var line := WinningCombinations[k];
      assert line[2] in line;
    }
  }

  /** Diagonal [0, 4, 8] and top row [0, 1, 2] win. */
  lemma SampleWins(history: seq<int>)
    requires history == [0, 4, 8] || history == [0, 1, 2]
    ensures Wins(history)
  {
    assert NoDup(history);
    WinsIff(history);
    var k := if history[1] == 4 then 6 else 0;
    assert Covered(history, WinningCombinations[k]);
  }

  /** [0, 1, 5] completes no line, so it does not win. */
  lemma SampleNoWin(history: seq<int>)
    requires history == [0, 1, 5]
    ensures !Wins(history)
  {
    assert NoDup(history);
    WinsIff(history);
    forall k | 0 <= k < |WinningCombinations|
      ensures !Covered(history, WinningCombinations[k])
    {
      var line := WinningCombinations[k];
      assert line[0] in line && line[1] in line && line[2] in line;
    }
  }

  /** Reference geometry: a cell's row and column in the 3x3 grid. */
  function Row(i: int): int { i / 3 }
  function Col(i: int): int { i % 3 }

  /** Three cells on one row, one column or one of the two diagonals. */
  predicate Collinear(a: int, b: int, c: int)
  {
    (Row(a) == Row(b) == Row(c))
    || (Col(a) == Col(b) == Col(c))
    || (Row(a) == Col(a) && Row(b) == Col(b) && Row(c) == Col(c))
    || (Row(a) + Col(a) == 2 && Row(b) + Col(b) == 2 && Row(c) + Col(c) == 2)
  }

  /** Each of the eight combinations is three distinct cells, in increasing order, on one
      straight line of the grid. */
  lemma ListedLinesAreStraight()
    ensures forall k :: 0 <= k < |WinningCombinations| ==>
              var line := WinningCombinations[k];
              Triple(line) && 0 <= line[0] < line[1] < line[2] < 9 && Collinear(line[0], line[1], line[2])
  {
  }

  /** Three increasing cells in one row are that row's combination. */
  lemma RowIsListed(a: int, b: int, c: int)
    requires 0 <= a < b < c < 9 && Row(a) == Row(b) == Row(c)
    ensures [a, b, c] == WinningCombinations[Row(a)]
  {
  }

  /** Three increasing cells in one column are that column's combination. */
  lemma ColumnIsListed(a: int, b: int, c: int)
    requires 0 <= a < b < c < 9 && Col(a) == Col(b) == Col(c)
    ensures [a, b, c] == WinningCombinations[3 + Col(a)]
  {
  }

  /** Every straight line of three cells, written in increasing order, is one of the eight. */
  lemma StraightLinesAreListed()
    ensures forall a, b, c :: 0 <= a < b < c < 9 && Collinear(a, b, c) ==> [a, b, c] in WinningCombinations
  {
    forall a, b, c | 0 <= a < b < c < 9 && Collinear(a, b, c)
      ensures [a, b, c] in WinningCombinations
    {
      if Row(a) == Row(b) == Row(c) {
        RowIsListed(a, b, c);
      } else if Col(a) == Col(b) == Col(c) {
        ColumnIsListed(a, b, c);
      } else if Row(a) == Col(a) && Row(b) == Col(b) && Row(c) == Col(c) {
        assert [a, b, c] == WinningCombinations[6];
      } else {
        assert [a, b, c] == WinningCombinations[7];
      }
    }
  }
}
